=== FILE: README.md ===
# User, profile and serializer model of `profile_1`

A functional Dafny model of the hand-written logic in the `profile_1` app of
django-mini-3-serializer: the user store with its custom manager
(`MyUserManager._create_user`, `MyUserManager.get_or_create_user`), the
`MyUser` / `MyProfile` / `MyImage` records with their cascades, and the
`create` / `update` hooks, declared fields and output of `UserSerializer`.

- `wrappers.dfy` (`Wrappers`): `Option` for absent keys and nullable columns,
  `Result` for calls that raise.
- `models.dfy` (`Models`): the records, the store (users and profiles keyed
  by the unique username, images by id), its invariant `Valid`, password
  hashing as an abstract credential, the manager operations and the
  cascading deletes.
- `serializers.dfy` (`Serializers`): validated payloads, `create`, `update`,
  retries of `update`, the rendered output and its read-back, and the
  persistence step `instance.save()`.

Modelling choices:

- The store is immutable: every write returns a new `Store`.
- A validated payload is typed data. Each top-level key may be absent. Each
  nested `my_profile` key is three-state: absent, present with `None`, or
  present with a value (`Option<Option<T>>`), because the profile columns are
  nullable.
- A birthdate is a `Date` value. Only equality of dates matters; no operation looks at its parts.
- Password hashing is abstracted. A `Credential` records only which plaintext
  it accepts (`Verifies`). The random salt is a parameter. Hashing `None`
  gives an unusable credential that accepts nothing. No property compares two
  credentials built from different salts.
- Python truthiness is explicit, in one predicate, `Models.Truthy`. `None` and `""` are both falsy, both for the
  username the base manager checks and for the new password in `update`.
- The base manager's own checks are reached through the call on
  `models.py:14`. A falsy username raises `ValueError` (`UsernameNotSet`). A
  duplicate username fails on the unique column (`UsernameTaken`).

Two places where the code does less than its evident intent are modelled as
written and logged under Findings:

- `my_profile` is optional (`serializers.py:28`), yet `create` calls `.get`
  on it and raises when it is absent.
- `update` edits the cached profile but saves only the user row
  (`serializers.py:63`), so the profile edits are not stored.

## Model

| member | source | states |
|---|---|---|
| Models.MakePassword | mini_3_serializer/profile_1/models.py:14 | the stored credential accepts exactly the given plaintext, and accepts nothing when the password is `None` |
| Models.NewProfile | mini_3_serializer/profile_1/models.py:11-15 | each profile field holds the keyword value passed for it, and `None` when the keyword is not passed |
| Models.NewProfileDefaults | mini_3_serializer/profile_1/models.py:42-44 | a profile built with no profile keywords equals the column defaults: all three fields `None` |
| Models.CreateUser | mini_3_serializer/profile_1/models.py:6-16 | creation succeeds exactly when the username is truthy and not yet stored; otherwise it fails with `UsernameNotSet` or `UsernameTaken`; the new user has that username and a credential accepting exactly the given password |
| Models.CreateUserAddsOneUserAndProfile | mini_3_serializer/profile_1/models.py:11-16 | a successful creation adds exactly one user and one profile under the new username; the profile is filled from the popped keywords; existing users, profiles and images are unchanged; the store invariant is preserved |
| Models.GetOrCreateUser | mini_3_serializer/profile_1/models.py:18-20 | for a stored username (`test` when omitted), returns that user and leaves the store unchanged |
| Models.GetOrCreateDefaults | mini_3_serializer/profile_1/models.py:18-22 | with both arguments omitted, the result is the user `test`, and a newly created one accepts the password `test` |
| Models.GetOrCreateInsertsAbsent | mini_3_serializer/profile_1/models.py:21-22 | for an absent non-empty username, inserts exactly one user under that username, whose credential accepts exactly the given password, and a profile filled from the forwarded keywords; the other profiles and the images are kept and the invariant is preserved |
| Models.GetOrCreateRefusesEmpty | mini_3_serializer/profile_1/models.py:21-22 | the empty username is not found and its creation raises `UsernameNotSet` |
| Models.GetOrCreateIdempotent | mini_3_serializer/profile_1/models.py:18-22 | a second call with the same username returns the first call's user and store, whatever its password, keywords and salt |
| Models.ImagesNotOwnedBy | mini_3_serializer/profile_1/models.py:36 | the cascade drops exactly the images attached to the deleted profile, so the image count falls by their number, and keeps every other image unchanged |
| Models.DeleteUser | mini_3_serializer/profile_1/models.py:41 | after deleting a user, neither the user nor its profile remains, and no image of that profile remains |
| Models.DeleteUserCascades | mini_3_serializer/profile_1/models.py:36-41 | deleting a user removes exactly one user, its profile and exactly the images of that profile; every other user, profile and image is kept with its value, and the invariant holds |
| Models.DeleteProfile | mini_3_serializer/profile_1/models.py:36 | after deleting a profile, no image of that profile remains |
| Models.DeleteProfileCascades | mini_3_serializer/profile_1/models.py:36 | deleting a profile removes exactly its images; users and every other profile are unchanged, and every remaining image is unchanged and belongs to a remaining profile |
| Serializers.Explicit | mini_3_serializer/profile_1/serializers.py:46-48 | passing every nested key explicitly, with `None` for a missing one, fills a profile exactly as the nested mapping itself would |
| Serializers.Create | mini_3_serializer/profile_1/serializers.py:42-50 | without `my_profile` the call raises `ProfileMissing`; it succeeds exactly when `my_profile` is given and the username is truthy and free; the new user has the payload's username and password, and its profile holds the nested values, `None` where absent |
| Serializers.CreateAddsOneUserAndProfile | mini_3_serializer/profile_1/serializers.py:42-50 | a successful `create` stores exactly one new user under the payload's username and one profile holding the nested values; every user, profile and image already stored is kept, and the store invariant is preserved |
| Serializers.Patch | mini_3_serializer/profile_1/serializers.py:60-62 | each profile field takes the payload's value for its key when present and keeps its current value otherwise |
| Serializers.Update | mini_3_serializer/profile_1/serializers.py:52-56 | the username is the payload's when present and the current one otherwise; a truthy password replaces the credential with one accepting exactly it; an absent or empty password leaves the credential untouched |
| Serializers.UpdatePatchesEachField | mini_3_serializer/profile_1/serializers.py:58-62 | with `my_profile` present, each of the three fields is replaced independently when present and kept when absent |
| Serializers.UpdateKeepsProfileWithoutProfileData | mini_3_serializer/profile_1/serializers.py:58-59 | an absent or empty `my_profile` leaves the whole profile unchanged |
| Serializers.UpdateEmptyIsIdentity | mini_3_serializer/profile_1/serializers.py:52-64 | an empty payload leaves the instance unchanged |
| Serializers.UpdateIdempotent | mini_3_serializer/profile_1/serializers.py:52-64 | applying `update` twice with the same payload gives the same username and profile as once, and a credential accepting the same plaintexts |
| Serializers.RetryIsIdempotent | mini_3_serializer/profile_1/serializers.py:52-64 | any number of retries of the same `update` ends where one application does, up to the password salt |
| Serializers.CreateAgreesWithPatch | mini_3_serializer/profile_1/serializers.py:46-62 | the profile `create` stores equals the default profile patched by `update`'s rule with the same nested data |
| Serializers.Represent | mini_3_serializer/profile_1/serializers.py:26-40 | the output holds exactly the declared fields minus the write-only `password`, with the profile nested under `my_profile` holding exactly the three profile fields |
| Serializers.RepresentReadBack | mini_3_serializer/profile_1/serializers.py:6-14 | reading the output back gives the instance's username and profile unchanged |
| Serializers.Rekey | mini_3_serializer/profile_1/serializers.py:53 | after a save under a possibly new username, the user and profile are filed under that username, and every other user and profile is kept |
| Serializers.Reown | mini_3_serializer/profile_1/models.py:36 | on a rename, the images of the renamed user's profile follow it to the new username, and every other image is unchanged |
| Serializers.RekeyKeepsValid | mini_3_serializer/profile_1/serializers.py:53-63 | saving under the same or a free username keeps the store invariant |
| Serializers.RekeyFrame | mini_3_serializer/profile_1/serializers.py:53-63 | saving under the same or a free username drops the old key, keeps every other user and profile and the number of users, and keeps every image's id and file |
| Serializers.SaveAsWritten | mini_3_serializer/profile_1/serializers.py:63 | `instance.save()` fails exactly on a rename onto a taken username; on success it writes the user row under its username, drops the old key, keeps everything else, and leaves the stored profile as it was |
| Serializers.SaveUserAndProfile | mini_3_serializer/profile_1/serializers.py:58-63 | the corrected save fails exactly on a rename onto a taken username; on success it writes the user and the profile under the username, drops the old key, keeps everything else, and the store stays valid |
| Serializers.UpdateStoredAsWritten | mini_3_serializer/profile_1/serializers.py:52-64 | a stored update fails exactly on a rename onto another stored username; on success it returns the updated instance, stores its user row with nothing else changed, and leaves the stored profile as it was |
| Serializers.UpdateStored | mini_3_serializer/profile_1/serializers.py:52-64 | with the corrected save, a stored update fails exactly on a rename onto another stored username; on success the store is valid and holds exactly the returned instance, with nothing else changed |
| Serializers.UpdateStoredIdempotent | mini_3_serializer/profile_1/serializers.py:52-64 | with the corrected save, repeating a stored update on the user it returned succeeds and keeps the usernames and profiles; the credential accepts the same plaintexts |
| Serializers.SavesDifferOnlyInProfile | mini_3_serializer/profile_1/serializers.py:58-63 | the update as written and the corrected one fail alike, return the same instance and store the same users and images; they differ only in the profile under the saved username, which the version as written leaves as it was |
| Serializers.SaveAsWrittenLosesProfileEdit | mini_3_serializer/profile_1/serializers.py:58-63 | for a concrete store and payload, the profile stored after `instance.save()` differs from the profile `update` returned |
| Serializers.CreateWithoutProfileRaises | mini_3_serializer/profile_1/serializers.py:46-48 | a payload with a fresh username and a password but no `my_profile` raises `ProfileMissing` |
| Serializers.CreateWithDefaultProfile | mini_3_serializer/profile_1/serializers.py:28-48 | with an absent `my_profile` read as empty, creation succeeds exactly when the username is truthy and free, and the profile gets the column defaults |
| Serializers.CreateWithDefaultProfileExtendsCreate | mini_3_serializer/profile_1/serializers.py:42-50 | when `my_profile` is present, the corrected creation is the same as `create` |
| Serializers.RegisterThenRename | mini_3_serializer/profile_1/serializers.py:42-64 | registering `test3` with a first name and a birthdate, then renaming to `test4` with a last name, returns `test4` with the first name and birthdate kept, the new last name set and the old password still accepted; the store, saved as written, files the user under `test4` but keeps the old last name `None` |

## Left out

- Validation is not modelled. This covers type coercion, date parsing, the error map, `is_valid`, required-field checks and the pre-check of username uniqueness. Payloads are taken as already validated; uniqueness is a store invariant plus the `UsernameTaken` failure.
- Hashing is abstract. `set_password` and `make_password` are salted foreign functions, so a credential records only which plaintext it accepts, and the salt is a parameter.
- The base manager's `normalize_username` and `normalize_email` are taken as the identity. The `email` argument and any keyword other than the three profile keys (`is_staff`, `is_superuser`, …) are not modelled.
- The `friends` many-to-many relation is not modelled, because no logic uses it.
- The image file storage of `ImageField` is not modelled. Nothing in the core creates images, so images appear only as records owned by a profile, for the cascades.
- Transactions are not modelled. `_create_user` saves the user and then the profile outside any transaction. Nothing in the model can fail between the two saves, so each call is one step.
- `update` mutates its payload with `validated_data.pop('my_profile')`. This cannot be observed after the call, so it is not modelled.
- Models.GetOrCreateUser: an explicit `None` argument is not modelled, because the model's `None` stands for an omitted argument, which takes the default `test`. In the source, `get_or_create_user(name, None)` creates the user with an unusable password, and `get_or_create_user(None)` looks up a null username, finds none, and raises `ValueError`.
- Serializers.UpdateStored: uses the corrected save, which also stores the profile; the source's behaviour is Serializers.UpdateStoredAsWritten.
- Serializers.UpdateStoredIdempotent: is about the corrected save. Under the save as written, the stored profile never changes at all.
- Serializers.SaveAsWritten: requires that the instance's row still exists. Saving an instance whose row was deleted would insert a new row, and that case is not modelled.
- Models.DeleteProfile: leaves its user without a profile, as the source does, and the result breaks `Valid`. On such a user, `update` with a non-empty `my_profile` would raise `RelatedObjectDoesNotExist` when it reads `instance.my_profile` (`serializers.py:59-62`), while an update without one would save normally. Neither case is modelled: UpdateStored and UpdateStoredAsWritten require `Valid`, which excludes every update of such a user.
- Serializers.Represent: renders a birthdate as an abstract date value rather than its ISO text.
- `UserHyperLinkSerializer`, `ImageSerializer`, the viewset and router wiring, the tracing decorator and the console driver functions only print or declare framework wiring, so they are not modelled.

## Findings

| source | as written | input that shows it | evidently intended | confidence | as-written member | corrected member |
|---|---|---|---|---|---|---|
| mini_3_serializer/profile_1/serializers.py:63 | `instance.save()` writes only the `MyUser` row; the edits made to `instance.my_profile` on lines 60-62 are never saved | stored user `test3` with a null-field profile, payload `{my_profile: {last_name: "test4 last name"}}`: the returned instance has the new last name, the stored profile does not | save the profile with the user | high; not executed | Serializers.SaveAsWrittenLosesProfileEdit | Serializers.SaveUserAndProfile |
| mini_3_serializer/profile_1/serializers.py:46-48 | `validated_data.get('my_profile').get(...)` is called although `my_profile` is declared `required=False` (line 28), so a payload without it raises `AttributeError` | `{username: "invalid_user", password: "invalid_user"}` on an empty store | create the profile with null fields | medium; not executed | Serializers.CreateWithoutProfileRaises | Serializers.CreateWithDefaultProfile |

`Serializers.SaveAsWritten` and `Serializers.UpdateStoredAsWritten` model the save as written. `Serializers.UpdateStored` uses the corrected save. `Serializers.Create` models `create` as written.

=== FILE: models.dfy ===
/** The user store of `profile_1/models.py`: users keyed by their unique
    username, one profile per user, images hanging off profiles, and the
    manager operations `_create_user` and `get_or_create_user`. */
module Models {
  import opened Wrappers

  /** A calendar date. Only equality of dates matters to the operations
      here; none of them looks at its parts. */
  datatype Date = Date(year: int, month: int, day: int)

  /** A stored password. Hashing is salted and one-way; the model keeps only
      what a hash can answer, namely which plaintext it accepts. `Unusable` is
      what hashing `None` yields: a credential no plaintext verifies. */
  datatype Credential = Unusable(salt: nat) | Hashed(secret: string, salt: nat)

  /** `check_password(raw)`: does the stored credential accept `raw`? */
  predicate Verifies(c: Credential, raw: string) {
    c.Hashed? && c.secret == raw
  }

  /** `make_password(raw)`, the only way a credential is built. The salt is
      the random input the hasher would draw itself. */
  function MakePassword(raw: Option<string>, salt: nat): (c: Credential)
    ensures forall p :: Verifies(c, p) <==> raw == Some(p)
  {
    match raw
    case None => Unusable(salt)
    case Some(p) => Hashed(p, salt)
  }

  /** `MyProfile`: three nullable columns. */
  datatype Profile = Profile(firstName: Option<string>, lastName: Option<string>, birthdate: Option<Date>)

  /** The column defaults of `MyProfile`: every field `None`. */
  const DefaultProfile := Profile(None, None, None)

  /** A mapping holding some of the three profile keys: the keyword
      arguments of `create_user`, or the nested `my_profile` payload. The
      outer `Option` says whether the key is present at all; the inner one is
      its value, which may itself be `None`. */
  datatype ProfileData = ProfileData(
    firstName: Option<Option<string>>,
    lastName: Option<Option<string>>,
    birthdate: Option<Option<Date>>)

  /** The empty mapping: no profile key present. */
  const NoProfileData := ProfileData(None, None, None)

  /** `field` holds what the mapping gives for its key: the present value,
      or `current` when the key is absent. */
  predicate FieldFrom<T(==)>(field: Option<T>, given: Option<Option<T>>, current: Option<T>) {
    match given
    case Some(v) => field == v
    case None => field == current
  }

  /** Every field of `q` holds what `d` gives for its key, or the value `p`
      holds where `d` lacks the key. */
  predicate PatchedFrom(q: Profile, p: Profile, d: ProfileData) {
    && FieldFrom(q.firstName, d.firstName, p.firstName)
    && FieldFrom(q.lastName, d.lastName, p.lastName)
    && FieldFrom(q.birthdate, d.birthdate, p.birthdate)
  }

  /** Every field of `q` holds what `d` gives for its key, or the column
      default `None` where `d` lacks the key. */
  predicate FilledFrom(q: Profile, d: ProfileData) {
    PatchedFrom(q, DefaultProfile, d)
  }

  /** The profile `_create_user` builds: each key is popped from the keyword
      arguments with `None` as the default. */
  function NewProfile(kw: ProfileData): (p: Profile)
    ensures FilledFrom(p, kw)
  {
    Profile(kw.firstName.GetOr(None), kw.lastName.GetOr(None), kw.birthdate.GetOr(None))
  }

  /** `MyUser`: a username and a credential. The base class's name columns
      are removed (`first_name = None`, `last_name = None`), so the record
      has nowhere to keep the profile keys. */
  datatype User = User(username: string, credential: Credential)

  /** `MyImage`: a file attached to the profile of user `owner`. */
  datatype Image = Image(owner: string, file: string)

  /** The database: users and profiles keyed by the owner's username, images
      by their id. */
  datatype Store = Store(users: map<string, User>, profiles: map<string, Profile>, images: map<nat, Image>)

  const EmptyStore := Store(map[], map[], map[])

  /** The store's invariants: a user is filed under its own username (which
      makes usernames unique), every user has exactly one profile and every
      profile an owner, and every image belongs to an existing profile. */
  ghost predicate Valid(s: Store) {
    && (forall k :: k in s.users ==> s.users[k].username == k)
    && s.users.Keys == s.profiles.Keys
    && (forall i :: i in s.images ==> s.images[i].owner in s.profiles)
  }

  /** Why a write is refused. */
  datatype Error =
    | UsernameNotSet   // `ValueError`: the base manager refuses a falsy username
    | UsernameTaken    // `IntegrityError`: the username column is unique
    | ProfileMissing   // `AttributeError`: `.get` called on `None`; raised only by
                       // `UserSerializer.create`, declared here so that `create`
                       // and `create_user` share one result type

  /** What a successful creation leaves behind. */
  datatype Created = Created(store: Store, user: User)

  /** Python truthiness of an optional string, such as the username passed
      to the base manager or the new password in `update`: `None` and `""`
      are falsy. */
  predicate Truthy(o: Option<string>) {
    o.Some? && o.value != ""
  }

  /** `MyUserManager._create_user` (reached through `create_user`): pop the
      three profile keys, create and save the base user with a hashed
      password, then create and save its profile. */
  function CreateUser(s: Store, username: Option<string>, password: Option<string>,
                      kw: ProfileData, salt: nat): (r: Result<Created, Error>)
    ensures r.Ok? <==> Truthy(username) && username.value !in s.users
    ensures !Truthy(username) ==> r == Err(UsernameNotSet)
    ensures Truthy(username) && username.value in s.users ==> r == Err(UsernameTaken)
    ensures r.Ok? ==> r.value.user.username == username.value
    ensures r.Ok? ==> forall p :: Verifies(r.value.user.credential, p) <==> password == Some(p)
  {
    if !Truthy(username) then Err(UsernameNotSet)
    else if username.value in s.users then Err(UsernameTaken)
    else
      var u := User(username.value, MakePassword(password, salt));
      Ok(Created(Store(s.users[u.username := u], s.profiles[u.username := NewProfile(kw)], s.images), u))
  }

  /** A successful creation adds exactly one user and exactly one profile,
      linked by the new username; the profile holds the passed values (or
      `None`); nothing already stored changes; the invariants survive. */
  lemma CreateUserAddsOneUserAndProfile(s: Store, username: Option<string>, password: Option<string>,
                                        kw: ProfileData, salt: nat)
    requires Valid(s)
    requires CreateUser(s, username, password, kw, salt).Ok?
    ensures var c := CreateUser(s, username, password, kw, salt).value;
      && Valid(c.store)
      && c.store.users.Keys == s.users.Keys + {username.value}
      && username.value !in s.users
      && |c.store.users| == |s.users| + 1
      && |c.store.profiles| == |s.profiles| + 1
      && c.store.users[username.value] == c.user
      && FilledFrom(c.store.profiles[username.value], kw)
      && (forall k :: k in s.users ==> c.store.users[k] == s.users[k] && c.store.profiles[k] == s.profiles[k])
      && c.store.images == s.images
  {
    var u := username.value;
    var c := CreateUser(s, username, password, kw, salt).value;
    assert c.store.users == s.users[u := c.user];
    assert c.store.profiles == s.profiles[u := NewProfile(kw)];
    assert c.store.users.Keys == s.users.Keys + {u};
    assert c.store.profiles.Keys == s.profiles.Keys + {u};
    assert forall k :: k in c.store.users ==> c.store.users[k].username == k;
    assert forall i :: i in c.store.images ==> c.store.images[i].owner in c.store.profiles;
  }

  /** Profile keys that are not passed end up `None`, the column default. */
  lemma NewProfileDefaults()
    ensures NewProfile(NoProfileData) == DefaultProfile
  {
  }

  /** The default arguments of `get_or_create_user`. */
  const DefaultUsername := "test"
  const DefaultPassword := "test"

  /** `MyUserManager.get_or_create_user`: the stored user with this username,
      or else a newly created one. `None` stands for an omitted argument,
      which takes its default. */
  function GetOrCreateUser(s: Store, username: Option<string>, password: Option<string>,
                           kw: ProfileData, salt: nat): (r: Result<Created, Error>)
    ensures var name := username.GetOr(DefaultUsername);
      name in s.users ==> r == Ok(Created(s, s.users[name]))
  {
    var name := username.GetOr(DefaultUsername);
    if name in s.users then Ok(Created(s, s.users[name]))
    else CreateUser(s, Some(name), Some(password.GetOr(DefaultPassword)), kw, salt)
  }

  /** With both arguments omitted, the user `test` is fetched, or created
      with the password `test`. */
  lemma GetOrCreateDefaults(s: Store, kw: ProfileData, salt: nat)
    requires Valid(s)
    ensures var r := GetOrCreateUser(s, None, None, kw, salt);
      && r.Ok?
      && r.value.user.username == DefaultUsername
      && r.value.store.users[DefaultUsername] == r.value.user
      && (DefaultUsername !in s.users ==> Verifies(r.value.user.credential, DefaultPassword))
  {
    if DefaultUsername !in s.users {
      CreateUserAddsOneUserAndProfile(s, Some(DefaultUsername), Some(DefaultPassword), kw, salt);
    }
  }

  /** On an absent, non-empty username exactly one user is inserted, filed
      under that username, with a credential that accepts exactly the given
      password and a profile filled from the forwarded keywords; the other
      profiles and the images are kept. */
  lemma GetOrCreateInsertsAbsent(s: Store, username: string, password: string, kw: ProfileData, salt: nat)
    requires Valid(s)
    requires username !in s.users && username != ""
    ensures var r := GetOrCreateUser(s, Some(username), Some(password), kw, salt);
      && r.Ok?
      && Valid(r.value.store)
      && r.value.user.username == username
      && r.value.store.users == s.users[username := r.value.user]
      && |r.value.store.users| == |s.users| + 1
      && (forall p :: Verifies(r.value.user.credential, p) <==> p == password)
      && username in r.value.store.profiles
      && FilledFrom(r.value.store.profiles[username], kw)
      && (forall k :: k in s.profiles ==> r.value.store.profiles[k] == s.profiles[k])
      && r.value.store.images == s.images
  {
    CreateUserAddsOneUserAndProfile(s, Some(username), Some(password), kw, salt);
  }

  /** The empty username is neither found nor created. */
  lemma GetOrCreateRefusesEmpty(s: Store, password: string, kw: ProfileData, salt: nat)
    requires "" !in s.users
    ensures GetOrCreateUser(s, Some(""), Some(password), kw, salt) == Err(UsernameNotSet)
  {
  }

  /** A second call with the same username, whatever its other arguments,
      returns the same user and leaves the store as the first call left it. */
  lemma GetOrCreateIdempotent(s: Store, username: Option<string>, password: Option<string>, kw: ProfileData, salt: nat,
                              password2: Option<string>, kw2: ProfileData, salt2: nat)
    requires Valid(s)
    requires GetOrCreateUser(s, username, password, kw, salt).Ok?
    ensures var first := GetOrCreateUser(s, username, password, kw, salt).value;
      GetOrCreateUser(first.store, username, password2, kw2, salt2) == Ok(first)
  {
    var name := username.GetOr(DefaultUsername);
    if name !in s.users {
      CreateUserAddsOneUserAndProfile(s, Some(name), Some(password.GetOr(DefaultPassword)), kw, salt);
    }
  }

  /** The ids of the images attached to `owner`'s profile. */
  function OwnedImages(images: map<nat, Image>, owner: string): set<nat> {
    set i | i in images && images[i].owner == owner
  }

  /** Removing a subset removes exactly its size. */
  lemma RemovedCount(keys: set<nat>, gone: set<nat>)
    requires gone <= keys
    ensures |keys - gone| == |keys| - |gone|
  {
    assert keys == (keys - gone) + gone;
  }

  /** Every image except those attached to `owner`'s profile: exactly the
      owned ones are dropped, and the kept ones are unchanged. */
  function ImagesNotOwnedBy(images: map<nat, Image>, owner: string): (m: map<nat, Image>)
    ensures m.Keys == images.Keys - OwnedImages(images, owner)
    ensures |m| == |images| - |OwnedImages(images, owner)|
    ensures forall i :: i in m ==> m[i] == images[i]
  {
    var m := map i | i in images && images[i].owner != owner :: images[i];
    assert m.Keys == images.Keys - OwnedImages(images, owner);
    RemovedCount(images.Keys, OwnedImages(images, owner));
    m
  }

  /** Deleting a user: `on_delete=CASCADE` removes its profile, and the
      profile's own cascade removes its images. */
  function DeleteUser(s: Store, username: string): (s': Store)
    ensures username !in s'.users && username !in s'.profiles
    ensures forall i :: i in s'.images ==> s'.images[i].owner != username
  {
    Store(s.users - {username}, s.profiles - {username}, ImagesNotOwnedBy(s.images, username))
  }

  /** Deleting a profile removes its images and keeps its user. */
  function DeleteProfile(s: Store, username: string): (s': Store)
    ensures username !in s'.profiles
    ensures forall i :: i in s'.images ==> s'.images[i].owner != username
  {
    Store(s.users, s.profiles - {username}, ImagesNotOwnedBy(s.images, username))
  }

  /** The cascade of deleting a user removes exactly its profile and the
      images attached to it; every other user, profile and image stays, and
      the invariants survive. */
  lemma DeleteUserCascades(s: Store, username: string)
    requires Valid(s)
    requires username in s.users
    ensures var s' := DeleteUser(s, username);
      && Valid(s')
      && s'.users.Keys == s.users.Keys - {username}
      && |s'.users| == |s.users| - 1
      && |s'.profiles| == |s.profiles| - 1
      && (forall k :: k in s'.users ==> s'.users[k] == s.users[k] && s'.profiles[k] == s.profiles[k])
      && s'.images.Keys == s.images.Keys - OwnedImages(s.images, username)
      && |s'.images| == |s.images| - |OwnedImages(s.images, username)|
      && (forall i :: i in s'.images ==> s'.images[i] == s.images[i])
  {
  }

  /** Deleting a profile removes exactly the images attached to it; users
      and the other profiles stay, with their values unchanged. */
  lemma DeleteProfileCascades(s: Store, username: string)
    requires Valid(s)
    requires username in s.profiles
    ensures var s' := DeleteProfile(s, username);
      && s'.users == s.users
      && s'.profiles.Keys == s.profiles.Keys - {username}
      && (forall k :: k in s'.profiles ==> s'.profiles[k] == s.profiles[k])
      && s'.images.Keys == s.images.Keys - OwnedImages(s.images, username)
      && |s'.images| == |s.images| - |OwnedImages(s.images, username)|
      && (forall i :: i in s'.images ==> s'.images[i] == s.images[i] && s'.images[i].owner in s'.profiles)
  {
  }
}

=== FILE: serializers.dfy ===
/** `UserSerializer` of `profile_1/serializers.py`: its declared fields, its
    output, and its `create` and `update` hooks, applied to validated data. */
module Serializers {
  import opened Wrappers
  import opened Models

  /** The fields `UserSerializer.Meta` declares. */
  const DeclaredFields: set<string> := {"username", "password", "my_profile"}

  /** The declared fields accepted on input but never rendered. */
  const WriteOnlyFields: set<string> := {"password"}

  /** The fields `ProfileSerializer.Meta` declares. */
  const ProfileFields: set<string> := {"first_name", "last_name", "birthdate"}

  /** A validated payload: every top-level key may be absent (`password` and
      `my_profile` are not required, and a partial update may leave out
      `username` too). */
  datatype UserData = UserData(username: Option<string>, password: Option<string>, myProfile: Option<ProfileData>)

  /** A `MyUser` instance as the serializer holds it, with its `my_profile`
      loaded alongside. */
  datatype Instance = Instance(user: User, profile: Profile)

  /** The nested mapping with every key present, as `create` passes it on:
      `.get(key)` hands over `None` for an absent key. */
  function Explicit(d: ProfileData): (e: ProfileData)
    ensures e.firstName.Some? && e.lastName.Some? && e.birthdate.Some?
    ensures forall p: Profile :: FilledFrom(p, d) <==> FilledFrom(p, e)
  {
    ProfileData(Some(d.firstName.GetOr(None)), Some(d.lastName.GetOr(None)), Some(d.birthdate.GetOr(None)))
  }

  /** `UserSerializer.create`: flatten the nested `my_profile` into the
      keyword arguments of `create_user`. The arguments are evaluated before
      the call, so a missing `my_profile` fails first, with `AttributeError`. */
  function Create(s: Store, data: UserData, salt: nat): (r: Result<Created, Error>)
    ensures r == Err(ProfileMissing) <==> data.myProfile.None?
    ensures r.Ok? <==> data.myProfile.Some? && Truthy(data.username) && data.username.value !in s.users
    ensures r.Ok? ==> && r.value.user.username == data.username.value
                      && r.value.user.username in r.value.store.profiles
                      && FilledFrom(r.value.store.profiles[r.value.user.username], data.myProfile.value)
                      && (forall p :: Verifies(r.value.user.credential, p) <==> data.password == Some(p))
  {
    match data.myProfile
    case None => Err(ProfileMissing)
    case Some(d) => CreateUser(s, data.username, data.password, Explicit(d), salt)
  }

  /** `profile_data.get(key, current)` for each of the three keys. */
  function Patch(p: Profile, d: ProfileData): (q: Profile)
    ensures PatchedFrom(q, p, d)
  {
    Profile(d.firstName.GetOr(p.firstName), d.lastName.GetOr(p.lastName), d.birthdate.GetOr(p.birthdate))
  }

  /** A successful `create` stores exactly one new user, under the payload's
      username, and one profile holding the nested values; everything already
      stored is kept and the store stays valid. */
  lemma CreateAddsOneUserAndProfile(s: Store, data: UserData, salt: nat)
    requires Valid(s)
    requires Create(s, data, salt).Ok?
    ensures var c := Create(s, data, salt).value;
      var u := data.username.value;
      && Valid(c.store)
      && u !in s.users
      && c.store.users.Keys == s.users.Keys + {u}
      && c.store.profiles.Keys == s.profiles.Keys + {u}
      && |c.store.users| == |s.users| + 1
      && |c.store.profiles| == |s.profiles| + 1
      && c.store.users[u] == c.user
      && FilledFrom(c.store.profiles[u], data.myProfile.value)
      && (forall k :: k in s.users ==> c.store.users[k] == s.users[k] && c.store.profiles[k] == s.profiles[k])
      && c.store.images == s.images
  {
    var d := data.myProfile.value;
    CreateUserAddsOneUserAndProfile(s, data.username, data.password, Explicit(d), salt);
  }

  /** `UserSerializer.update` on the in-memory instance: take the username if
      given, re-hash the password only if it is truthy, and patch the profile
      only if `my_profile` is present and non-empty. */
  function Update(inst: Instance, data: UserData, salt: nat): (r: Instance)
    ensures data.username.Some? ==> r.user.username == data.username.value
    ensures data.username.None? ==> r.user.username == inst.user.username
    ensures Truthy(data.password) ==> forall p :: Verifies(r.user.credential, p) <==> p == data.password.value
    ensures !Truthy(data.password) ==> r.user.credential == inst.user.credential
  {
    var username := data.username.GetOr(inst.user.username);
    var credential := if Truthy(data.password) then MakePassword(data.password, salt) else inst.user.credential;
    var profile := if data.myProfile.Some? && data.myProfile.value != NoProfileData
                   then Patch(inst.profile, data.myProfile.value)
                   else inst.profile;
    Instance(User(username, credential), profile)
  }

  /** Each profile field present in a non-empty `my_profile` is replaced by
      its value; each absent one keeps its current value. */
  lemma UpdatePatchesEachField(inst: Instance, data: UserData, salt: nat)
    requires data.myProfile.Some?
    ensures PatchedFrom(Update(inst, data, salt).profile, inst.profile, data.myProfile.value)
  {
  }

  /** An absent or empty `my_profile` leaves the whole profile unchanged. */
  lemma UpdateKeepsProfileWithoutProfileData(inst: Instance, data: UserData, salt: nat)
    requires data.myProfile.None? || data.myProfile == Some(NoProfileData)
    ensures Update(inst, data, salt).profile == inst.profile
  {
  }

  /** An empty payload changes nothing. */
  lemma UpdateEmptyIsIdentity(inst: Instance, salt: nat)
    ensures Update(inst, UserData(None, None, None), salt) == inst
  {
  }

  /** Two instances that differ at most in the salt of a password hash: same
      username, same profile, and credentials accepting the same plaintexts. */
  ghost predicate SameUpToSalt(a: Instance, b: Instance) {
    && a.user.username == b.user.username
    && a.profile == b.profile
    && (forall p :: Verifies(a.user.credential, p) <==> Verifies(b.user.credential, p))
  }

  /** Applying `update` a second time with the same payload changes nothing
      but, possibly, the salt of the password hash. */
  lemma UpdateIdempotent(inst: Instance, data: UserData, salt1: nat, salt2: nat)
    ensures SameUpToSalt(Update(Update(inst, data, salt1), data, salt2), Update(inst, data, salt1))
  {
    var once := Update(inst, data, salt1);
    var twice := Update(once, data, salt2);
    if data.myProfile.Some? && data.myProfile.value != NoProfileData {
      var d := data.myProfile.value;
      assert twice.profile == Patch(Patch(inst.profile, d), d);
    }
  }

  /** `update` retried once per salt, as a client retrying the request would. */
  function Retry(inst: Instance, data: UserData, salts: seq<nat>): (r: Instance)
    decreases |salts|
  {
    if |salts| == 0 then inst else Retry(Update(inst, data, salts[0]), data, salts[1..])
  }

  /** Any number of retries ends where a single `update` does, up to the
      salt of the password hash. */
  lemma {:induction false} RetryIsIdempotent(inst: Instance, data: UserData, salt: nat, salts: seq<nat>)
    ensures SameUpToSalt(Retry(Update(inst, data, salt), data, salts), Update(inst, data, salt))
    decreases |salts|
  {
    if |salts| > 0 {
      var once := Update(inst, data, salt);
      var twice := Update(once, data, salts[0]);
      UpdateIdempotent(inst, data, salt, salts[0]);
      RetryIsIdempotent(once, data, salts[0], salts[1..]);
      assert SameUpToSalt(Retry(Update(once, data, salts[0]), data, salts[1..]), Update(once, data, salts[0]));
    }
  }

  /** Creating with nested data `d` yields the same profile as patching the
      default profile with `d`: the two hooks agree on what a field means. */
  lemma CreateAgreesWithPatch(s: Store, data: UserData, salt: nat)
    requires Create(s, data, salt).Ok?
    ensures var c := Create(s, data, salt).value;
      c.store.profiles[c.user.username] == Patch(DefaultProfile, data.myProfile.value)
  {
  }

  /** A JSON value as the serializer renders it. */
  datatype Json = JString(text: string) | JDate(date: Date) | JNull | JObject(fields: map<string, Json>)

  function TextJson(o: Option<string>): Json {
    match o
    case Some(t) => JString(t)
    case None => JNull
  }

  function DateJson(o: Option<Date>): Json {
    match o
    case Some(d) => JDate(d)
    case None => JNull
  }

  /** `serializer.data`: the declared fields minus the write-only ones, with
      the profile nested under `my_profile`. */
  function Represent(inst: Instance): (j: Json)
    ensures j.JObject? && j.fields.Keys == DeclaredFields - WriteOnlyFields
    ensures "password" !in j.fields
    ensures j.fields["my_profile"].JObject? && j.fields["my_profile"].fields.Keys == ProfileFields
  {
    JObject(map[
      "username" := JString(inst.user.username),
      "my_profile" := JObject(map[
        "first_name" := TextJson(inst.profile.firstName),
        "last_name" := TextJson(inst.profile.lastName),
        "birthdate" := DateJson(inst.profile.birthdate)])])
  }

  function ReadText(j: Json): Option<Option<string>> {
    match j
    case JString(t) => Some(Some(t))
    case JNull => Some(None)
    case _ => None
  }

  function ReadDate(j: Json): Option<Option<Date>> {
    match j
    case JDate(d) => Some(Some(d))
    case JNull => Some(None)
    case _ => None
  }

  /** Read a rendered user back: its username and profile, if `j` has the
      rendered shape. */
  function ReadBack(j: Json): Option<(string, Profile)> {
    if j.JObject? && "username" in j.fields && j.fields["username"].JString?
       && "my_profile" in j.fields && j.fields["my_profile"].JObject?
    then
      var p := j.fields["my_profile"].fields;
      if "first_name" in p && "last_name" in p && "birthdate" in p
         && ReadText(p["first_name"]).Some? && ReadText(p["last_name"]).Some? && ReadDate(p["birthdate"]).Some?
      then Some((j.fields["username"].text,
                 Profile(ReadText(p["first_name"]).value, ReadText(p["last_name"]).value, ReadDate(p["birthdate"]).value)))
      else None
    else None
  }

  /** The output carries the whole readable state: username and profile come
      back unchanged. */
  lemma RepresentReadBack(inst: Instance)
    ensures ReadBack(Represent(inst)) == Some((inst.user.username, inst.profile))
  {
  }

  /** Every image, with those attached to `key`'s profile moved to `owner`'s.
      The second and third clauses spell out, image by image, what the
      comprehension does; the last one is the fact the cascades and the
      frame rely on: `owner` ends up with its own images and `key`'s. */
  function Reown(images: map<nat, Image>, key: string, owner: string): (m: map<nat, Image>)
    ensures m.Keys == images.Keys
    ensures forall i :: i in m && images[i].owner != key ==> m[i] == images[i]
    ensures forall i :: i in m && images[i].owner == key ==> m[i] == images[i].(owner := owner)
    ensures OwnedImages(m, owner) == OwnedImages(images, key) + OwnedImages(images, owner)
  {
    map i | i in images :: if images[i].owner == key then images[i].(owner := owner) else images[i]
  }

  /** File `user` and `profile` under the user's (possibly new) username in
      place of `key`; images follow their profile. */
  function Rekey(s: Store, key: string, user: User, profile: Profile): (s': Store)
    ensures user.username in s'.users && s'.users[user.username] == user
    ensures user.username in s'.profiles && s'.profiles[user.username] == profile
    ensures s'.users.Keys == s.users.Keys - {key} + {user.username}
    ensures s'.profiles.Keys == s.profiles.Keys - {key} + {user.username}
    ensures forall k :: k in s.users && k != key && k != user.username ==> s'.users[k] == s.users[k]
    ensures forall k :: k in s.profiles && k != key && k != user.username ==> s'.profiles[k] == s.profiles[k]
  {
    Store((s.users - {key})[user.username := user],
          (s.profiles - {key})[user.username := profile],
          Reown(s.images, key, user.username))
  }

  /** What a save of the row filed under `key`, now named `name`, leaves
      alone: the old key gives way to the new one, every other user and
      profile is kept, the number of users is unchanged, and every image
      keeps its id and file, those of the saved profile following it. */
  ghost predicate SaveFrame(s: Store, s': Store, key: string, name: string) {
    && s'.users.Keys == s.users.Keys - {key} + {name}
    && s'.profiles.Keys == s.profiles.Keys - {key} + {name}
    && |s'.users| == |s.users|
    && (forall k :: k in s.users && k != key ==> k in s'.users && s'.users[k] == s.users[k])
    && (forall k :: k in s.profiles && k != key ==> k in s'.profiles && s'.profiles[k] == s.profiles[k])
    && s'.images.Keys == s.images.Keys
    && (forall i :: i in s'.images && i in s.images ==>
          && s'.images[i].file == s.images[i].file
          && s'.images[i].owner == (if s.images[i].owner == key then name else s.images[i].owner))
  }

  /** Rekeying onto a free username, or onto the same one, keeps the store
      valid. */
  lemma RekeyKeepsValid(s: Store, key: string, user: User, profile: Profile)
    requires Valid(s) && key in s.users
    requires user.username == key || user.username !in s.users
    ensures Valid(Rekey(s, key, user, profile))
  {
    var s' := Rekey(s, key, user, profile);
    assert forall i :: i in s'.images ==> s'.images[i].owner in s'.profiles;
  }

  /** Rekeying onto a free username, or onto the same one, touches nothing
      but the saved row. */
  lemma RekeyFrame(s: Store, key: string, user: User, profile: Profile)
    requires Valid(s) && key in s.users
    requires user.username == key || user.username !in s.users
    ensures SaveFrame(s, Rekey(s, key, user, profile), key, user.username)
  {
    var s' := Rekey(s, key, user, profile);
    if user.username != key {
      assert |s.users.Keys - {key}| == |s.users| - 1;
    } else {
      assert s'.users.Keys == s.users.Keys;
    }
  }

  /** `instance.save()` as the source calls it: only the user row is
      written. The edited `my_profile` is a separate row that `save` does not
      touch, so the stored profile stays what it was. */
  function SaveAsWritten(s: Store, key: string, inst: Instance): (r: Result<Store, Error>)
    requires Valid(s) && key in s.users
    ensures r.Err? <==> inst.user.username != key && inst.user.username in s.users
    ensures r.Ok? ==> Valid(r.value) && SaveFrame(s, r.value, key, inst.user.username)
    ensures r.Ok? ==> && inst.user.username in r.value.users && r.value.users[inst.user.username] == inst.user
                      && inst.user.username in r.value.profiles && r.value.profiles[inst.user.username] == s.profiles[key]
  {
    if inst.user.username != key && inst.user.username in s.users then Err(UsernameTaken)
    else
      RekeyKeepsValid(s, key, inst.user, s.profiles[key]);
      RekeyFrame(s, key, inst.user, s.profiles[key]);
      Ok(Rekey(s, key, inst.user, s.profiles[key]))
  }

  /** Saving the user together with its profile, which is what `update`
      evidently intends. */
  function SaveUserAndProfile(s: Store, key: string, inst: Instance): (r: Result<Store, Error>)
    requires Valid(s) && key in s.users
    ensures r.Err? <==> inst.user.username != key && inst.user.username in s.users
    ensures r.Ok? ==> Valid(r.value) && SaveFrame(s, r.value, key, inst.user.username)
    ensures r.Ok? ==> && inst.user.username in r.value.users && r.value.users[inst.user.username] == inst.user
                      && inst.user.username in r.value.profiles && r.value.profiles[inst.user.username] == inst.profile
  {
    if inst.user.username != key && inst.user.username in s.users then Err(UsernameTaken)
    else
      RekeyKeepsValid(s, key, inst.user, inst.profile);
      RekeyFrame(s, key, inst.user, inst.profile);
      Ok(Rekey(s, key, inst.user, inst.profile))
  }

  /** The outcome of a stored update: the new store and the returned instance. */
  datatype Updated = Updated(store: Store, instance: Instance)

  /** `serializer.save()` on an existing user, as the source does it: load
      the instance filed under `key`, apply `update`, and save the user row
      only. The returned instance carries the patched profile; the store
      keeps the old one. */
  function UpdateStoredAsWritten(s: Store, key: string, data: UserData, salt: nat): (r: Result<Updated, Error>)
    requires Valid(s) && key in s.users
    ensures r.Err? <==> data.username.Some? && data.username.value != key && data.username.value in s.users
    ensures r.Ok? ==> r.value.instance == Update(Instance(s.users[key], s.profiles[key]), data, salt)
    ensures r.Ok? ==> var u := r.value.instance.user.username;
      && Valid(r.value.store)
      && SaveFrame(s, r.value.store, key, u)
      && u in r.value.store.users && r.value.store.users[u] == r.value.instance.user
      && r.value.store.profiles[u] == s.profiles[key]
  {
    var inst := Update(Instance(s.users[key], s.profiles[key]), data, salt);
    match SaveAsWritten(s, key, inst)
    case Ok(s') => Ok(Updated(s', inst))
    case Err(e) => Err(e)
  }

  /** `serializer.save()` on an existing user with the corrected save: load
      the instance filed under `key`, apply `update`, and persist user and
      profile. */
  function UpdateStored(s: Store, key: string, data: UserData, salt: nat): (r: Result<Updated, Error>)
    requires Valid(s) && key in s.users
    ensures r.Ok? ==> r.value.instance == Update(Instance(s.users[key], s.profiles[key]), data, salt)
    ensures r.Ok? ==> Valid(r.value.store) && SaveFrame(s, r.value.store, key, r.value.instance.user.username)
    ensures r.Ok? ==> var u := r.value.instance.user.username;
      && u in r.value.store.users
      && Instance(r.value.store.users[u], r.value.store.profiles[u]) == r.value.instance
    ensures r.Err? <==> data.username.Some? && data.username.value != key && data.username.value in s.users
  {
    var inst := Update(Instance(s.users[key], s.profiles[key]), data, salt);
    match SaveUserAndProfile(s, key, inst)
    case Ok(s') => Ok(Updated(s', inst))
    case Err(e) => Err(e)
  }

  /** Repeating a stored update with the same payload, on the user it
      returned, succeeds and changes nothing but the salt of the password
      hash. */
  lemma UpdateStoredIdempotent(s: Store, key: string, data: UserData, salt1: nat, salt2: nat)
    requires Valid(s) && key in s.users
    requires UpdateStored(s, key, data, salt1).Ok?
    ensures var first := UpdateStored(s, key, data, salt1).value;
      var u := first.instance.user.username;
      && Valid(first.store) && u in first.store.users
      && var second := UpdateStored(first.store, u, data, salt2);
         && second.Ok?
         && SameUpToSalt(second.value.instance, first.instance)
         && second.value.store.users.Keys == first.store.users.Keys
         && second.value.store.profiles == first.store.profiles
  {
    var first := UpdateStored(s, key, data, salt1).value;
    var u := first.instance.user.username;
    assert Instance(first.store.users[u], first.store.profiles[u]) == first.instance;
    UpdateIdempotent(Instance(s.users[key], s.profiles[key]), data, salt1, salt2);
    var again := Update(first.instance, data, salt2);
    assert again.user.username == u && again.profile == first.store.profiles[u];
    RekeyInPlaceKeepsProfiles(first.store, u, again.user);
    assert UpdateStored(first.store, u, data, salt2) == Ok(Updated(Rekey(first.store, u, again.user, again.profile), again));
  }

  /** Saving a row under its own username, with the profile already stored,
      leaves the keys and the profiles as they were. */
  lemma RekeyInPlaceKeepsProfiles(s: Store, key: string, user: User)
    requires key in s.users && key in s.profiles && user.username == key
    ensures Rekey(s, key, user, s.profiles[key]).users.Keys == s.users.Keys
    ensures Rekey(s, key, user, s.profiles[key]).profiles == s.profiles
  {
  }

  /** The save as written and the corrected save fail alike, return the
      same instance and store the same users; they differ only in the
      profile filed under the saved username. */
  lemma SavesDifferOnlyInProfile(s: Store, key: string, data: UserData, salt: nat)
    requires Valid(s) && key in s.users
    ensures var a := UpdateStoredAsWritten(s, key, data, salt);
      var b := UpdateStored(s, key, data, salt);
      && a.Ok? == b.Ok?
      && (a.Ok? ==>
            var u := a.value.instance.user.username;
            && a.value.instance == b.value.instance
            && a.value.store.users == b.value.store.users
            && a.value.store.images == b.value.store.images
            && a.value.store.profiles == b.value.store.profiles[u := s.profiles[key]])
  {
    var inst := Update(Instance(s.users[key], s.profiles[key]), data, salt);
    if inst.user.username == key || inst.user.username !in s.users {
      var sa := Rekey(s, key, inst.user, s.profiles[key]);
      var sb := Rekey(s, key, inst.user, inst.profile);
      assert UpdateStoredAsWritten(s, key, data, salt) == Ok(Updated(sa, inst));
      assert UpdateStored(s, key, data, salt) == Ok(Updated(sb, inst));
      assert sa.profiles == sb.profiles[inst.user.username := s.profiles[key]];
    }
  }

  /** `update` followed by the source's `instance.save()` can leave a stored
      profile that differs from the instance `update` returned. */
  lemma SaveAsWrittenLosesProfileEdit()
    ensures var s := Store(map["test3" := User("test3", Unusable(0))], map["test3" := DefaultProfile], map[]);
      var data := UserData(None, None, Some(ProfileData(None, Some(Some("test4 last name")), None)));
      var inst := Update(Instance(s.users["test3"], s.profiles["test3"]), data, 0);
      && Valid(s)
      && SaveAsWritten(s, "test3", inst).Ok?
      && SaveAsWritten(s, "test3", inst).value.profiles["test3"] != inst.profile
  {
  }

  /** `create` as written, on a payload without `my_profile`, raises even
      though the username is fresh. */
  lemma CreateWithoutProfileRaises()
    ensures Create(EmptyStore, UserData(Some("invalid_user"), Some("invalid_user"), None), 0) == Err(ProfileMissing)
  {
  }

  /** `create` with an absent `my_profile` read as the empty mapping, which
      is what the optional nested field evidently intends. */
  function CreateWithDefaultProfile(s: Store, data: UserData, salt: nat): (r: Result<Created, Error>)
    ensures r.Ok? <==> Truthy(data.username) && data.username.value !in s.users
    ensures r.Ok? && data.myProfile.None? ==> && r.value.user.username in r.value.store.profiles
                                              && r.value.store.profiles[r.value.user.username] == DefaultProfile
  {
    Create(s, UserData(data.username, data.password, Some(data.myProfile.GetOr(NoProfileData))), salt)
  }

  /** Where `create` succeeds, the corrected version does the same thing. */
  lemma CreateWithDefaultProfileExtendsCreate(s: Store, data: UserData, salt: nat)
    requires data.myProfile.Some?
    ensures CreateWithDefaultProfile(s, data, salt) == Create(s, data, salt)
  {
  }

  /** The registration payload `{username: "test3", password: "test3",
      my_profile: {first_name: "test3 first name", birthdate: 2023-09-16}}`
      on an empty store, then the partial update `{username: "test4",
      my_profile: {last_name: "test4 last name"}}` saved as the source saves
      it: the returned instance is renamed and patched, while the stored
      profile keeps its old last name. */
  lemma RegisterThenRename(salt: nat, salt2: nat)
    ensures var data := UserData(Some("test3"), Some("test3"),
                                 Some(ProfileData(Some(Some("test3 first name")), None, Some(Some(Date(2023, 9, 16))))));
      var r := Create(EmptyStore, data, salt);
      && r.Ok?
      && r.value.user.username == "test3"
      && Verifies(r.value.user.credential, "test3")
      && r.value.store.profiles["test3"] == Profile(Some("test3 first name"), None, Some(Date(2023, 9, 16)))
      && var patch := UserData(Some("test4"), None, Some(ProfileData(None, Some(Some("test4 last name")), None)));
         var u := UpdateStoredAsWritten(r.value.store, "test3", patch, salt2);
         && u.Ok?
         && u.value.instance.user.username == "test4"
         && u.value.instance.profile == Profile(Some("test3 first name"), Some("test4 last name"), Some(Date(2023, 9, 16)))
         && Verifies(u.value.instance.user.credential, "test3")
         && u.value.store.users.Keys == {"test4"}
         && u.value.store.profiles["test4"] == Profile(Some("test3 first name"), None, Some(Date(2023, 9, 16)))
  {
    var data := UserData(Some("test3"), Some("test3"),
                         Some(ProfileData(Some(Some("test3 first name")), None, Some(Some(Date(2023, 9, 16))))));
    CreateUserAddsOneUserAndProfile(EmptyStore, data.username, data.password, Explicit(data.myProfile.value), salt);
  }
}

=== FILE: wrappers.dfy ===
/** Option and Result: Python's `None`-or-value and raise-or-return, made explicit. */
module Wrappers {

  /** A value that may be missing: a dictionary key that is absent, or a
      nullable column holding `None`. */
  datatype Option<+T> = None | Some(value: T) {

    /** The value, or `default` when missing: `dict.get(key, default)`. */
    function GetOr(default: T): T {
      match this
      case Some(v) => v
      case None => default
    }
  }

  /** The outcome of an operation that either returns a value or raises. */
  datatype Result<+T, +E> = Ok(value: T) | Err(error: E)
}
